=== FILE: README.md ===
# ZLE special parameters: a verified Dafny model

This project models the accessors behind the special parameters that the zsh
line editor (ZLE) creates while a user-defined widget runs
(`Src/Zle/zle_params.c`). The editor state is one byte array `line`, the buffer
length `ll` and the cursor `cs`. Four parameters are views of that state:
BUFFER (the whole buffer), CURSOR (the cursor offset), LBUFFER (the bytes left
of the cursor) and RBUFFER (the bytes from the cursor on). BUFFER, LBUFFER and
RBUFFER are read and written as metafied strings, the shell's NUL-free encoding
of arbitrary bytes; CURSOR is read and written as an integer. The read-only
parameters are WIDGET, LASTWIDGET and `keys` (the triggering key bytes in
caret/meta notation); WIDGET's accessor is left out. All of them share an unset
hook that acts only on an explicit unset.

Modules:

- `Bytes` (`bytes.dfy`): the byte type and the XOR-with-32/64 operations.
- `Codec` (`codec.dfy`): a metafy/unmetafy codec (`Encode`/`Decode`). Its
  round trip and its distribution over concatenation are proved.
- `Memory` (`memory.dfy`): `strlen` as a function over byte sequences, and
  `memmove` (overlap-safe, in place on an array), `memcpy` and `strcpy` as
  array methods. Each method has a pure description of the memory it leaves.
- `ZleParams` (`zle_params.dfy`): class `ZleLine` with fields `line`, `ll` and
  `cs`. The invariant `0 <= cs <= ll < line.Length` is the source's
  `0 <= $CURSOR <= $#BUFFER`, plus room for a terminator. Each setter is a
  method that mutates the array in place the way the C code does. Its
  postcondition gives the new buffer as a sequence expression over the old one.
  The getters are functions that return encoded strings.
- `KeyLabels` (`key_labels.dfy`): `get_keys` as a loop over the NUL-terminated
  key buffer. `KeyLabel` gives the label of one byte. An inverse
  (`ParseKeyLabel`) shows that labels are unambiguous.
- `Lifecycle` (`lifecycle.dfy`): `zleunsetfn` and `get_lwidget`.

## Model

| member | source | states |
|---|---|---|
| `Codec.Encode` | Src/Zle/zle_params.c:137 | the encoding of any byte string (NUL and high-bit bytes included) is NUL-free, is empty exactly when the input is, and is between one and two times the input's length |
| `Codec.Decode` | Src/Zle/zle_params.c:123 | decoding succeeds only on NUL-free input; a decoded string is at most as long as its encoding and at least half as long |
| `Codec.DecodeEncode` | Src/Zle/zle_params.c:137 | round trip: decoding what metafy produced gives back exactly the original bytes |
| `Codec.EncodeAppend` | Src/Zle/zle_params.c:178-206 | encoding distributes over concatenation, so the encodings of the two halves of the buffer concatenate to the encoding of the whole |
| `Codec.EncodeInjective` | Src/Zle/zle_params.c:137 | distinct byte strings have distinct encodings |
| `Memory.StrLen` | Src/Zle/zle_params.c:228-229 | the count of bytes before the first NUL: every earlier byte is nonzero, and the byte at that index is NUL when it is inside the string |
| `Memory.StrCpyInto` | Src/Zle/zle_params.c:125 | after strcpy, memory holds the source up to and including its first NUL; every later byte is the old byte |
| `Memory.MemMove` | Src/Zle/zle_params.c:171 | memmove in place: the n bytes that were at src are at dst, everything else is unchanged, even when the ranges overlap |
| `Memory.MemCpy` | Src/Zle/zle_params.c:172 | memcpy: the n source bytes are at dst and every other array byte is unchanged |
| `Memory.StrCpy` | Src/Zle/zle_params.c:125 | the array after the strcpy loop is exactly `StrCpyInto` of its old contents |
| `Memory.SpliceLeft` | Src/Zle/zle_params.c:171-172 | memmove of the right part to offset \|y\| followed by memcpy of y leaves y followed by the old right part |
| `ZleParams.CString` | Src/Zle/zle_params.c:123 | the decoded value with unmetafy's terminator after it: its strlen is at most the value's length, and equals it when the value is NUL-free |
| `ZleParams.ZleLine.SizeLine` | Src/Zle/zle_params.c:124 | the array grows to hold sz bytes and a terminator; the bytes already there are kept |
| `ZleParams.ZleLine.GetBuffer` | Src/Zle/zle_params.c:134-138 | BUFFER is a NUL-free string that decodes to exactly `line[0..ll)` |
| `ZleParams.ZleLine.GetLBuffer` | Src/Zle/zle_params.c:179-183 | LBUFFER is a NUL-free string that decodes to exactly the bytes left of the cursor |
| `ZleParams.ZleLine.GetRBuffer` | Src/Zle/zle_params.c:202-206 | RBUFFER is a NUL-free string that decodes to exactly the bytes from the cursor to the end |
| `ZleParams.ZleLine.GetCursor` | Src/Zle/zle_params.c:153-157 | CURSOR is in [0, length of the buffer] |
| `ZleParams.ZleLine.SetCursor` | Src/Zle/zle_params.c:141-150 | the cursor becomes 0 for a negative request, `ll` for any request beyond `ll`, and the request otherwise; the buffer is unchanged and the invariant is kept |
| `ZleParams.ZleLine.SetBuffer` | Src/Zle/zle_params.c:119-131 | as written: with a value, `ll` becomes the decoded length and the cursor becomes min(old cursor, ll), while the array becomes the strcpy of the decoded value into the grown old array (so a NUL-free value is stored exactly); with no value, cursor and length become 0 |
| `ZleParams.ZleLine.SetBufferExact` | Src/Zle/zle_params.c:119-131 | the corrected set_buffer: the buffer becomes exactly the decoded value, NULs included, so BUFFER reads back as assigned; the cursor is clamped, or 0 when the value is absent |
| `ZleParams.ZleLine.SetLBuffer` | Src/Zle/zle_params.c:160-176 | the buffer becomes the decoded value (empty if absent) followed by the old right part; the cursor moves to the value's length; LBUFFER then decodes to the value and RBUFFER is unchanged |
| `ZleParams.ZleLine.ReplaceLeft` | Src/Zle/zle_params.c:170-174 | the splice on decoded bytes: buffer = y followed by the old `line[cs..ll)`, with cs = \|y\| and the invariant kept |
| `ZleParams.ZleLine.SetRBuffer` | Src/Zle/zle_params.c:186-199 | the buffer becomes the old left part followed by the decoded value (empty if absent); the cursor stays and `ll = cs + \|value\|`; RBUFFER then decodes to the value and LBUFFER is unchanged |
| `ZleParams.ZleLine.ReplaceRight` | Src/Zle/zle_params.c:196-197 | the splice on decoded bytes: buffer = old `line[0..cs)` followed by y, cursor unchanged |
| `ZleParams.ViewsAgree` | Src/Zle/zle_params.c:134-206 | in every valid state LBUFFER followed by RBUFFER equals BUFFER, as encoded strings and as decoded bytes |
| `ZleParams.StrCpyNulFree` | Src/Zle/zle_params.c:122-125 | for a NUL-free decoded value, set_buffer's strcpy leaves exactly that value in the first ll bytes |
| `ZleParams.StrCpyBufferAfterNul` | Src/Zle/zle_params.c:122-125 | for a decoded value with a NUL, the buffer equals the value if and only if the old array already held the value's bytes after its first NUL |
| `ZleParams.SetBufferNulCounterexample` | Src/Zle/zle_params.c:122-125 | assigning the bytes 'a', NUL, 'b' over an array holding "xxx" gives length 3 but buffer 'a', NUL, 'x' |
| `KeyLabels.GetKeys` | Src/Zle/zle_params.c:223-246 | one entry per byte of keybuf before its first NUL, in order, each the label of that byte, followed by a NULL entry |
| `KeyLabels.KeyLabelShape` | Src/Zle/zle_params.c:230-241 | a label has 1 to 4 characters, so it fits the 5-byte allocation with its terminator; it starts with "M-" exactly when the high bit is set; every character is printable (32..126), so no label holds a NUL |
| `KeyLabels.BaseLabelShape` | Src/Zle/zle_params.c:236-240 | after the meta bit is cleared, a control byte or DEL gets a '^' prefix and the label has two characters; any other byte is shown as itself |
| `KeyLabels.ParseBaseInverse` | Src/Zle/zle_params.c:236-240 | the caret part of a label can be read back to its 7-bit byte |
| `KeyLabels.ParseKeyLabelInverse` | Src/Zle/zle_params.c:229-241 | every byte's label reads back to that byte |
| `KeyLabels.KeyLabelInjective` | Src/Zle/zle_params.c:229-241 | distinct key bytes get distinct labels |
| `KeyLabels.KeyLabelExamples` | Src/Zle/zle_params.c:231-240 | 0x01 is "^A", 0x81 is "M-^A", 0x7f is "^?" and 'a' is "a" |
| `Lifecycle.ExplicitUnsetsAreStandard` | Src/Zle/zle_params.c:111-116 | a run made only of explicit unsets (exp nonzero) has exactly the effect of the standard unset function applied to each, with the same exp |
| `Lifecycle.StdUnsetCalls` | Src/Zle/zle_params.c:106-116 | over any run of unsets, the standard unset function runs exactly once per explicit unset and never for a scope exit |
| `Lifecycle.ScopeExitsChangeNothing` | Src/Zle/zle_params.c:106-116 | a run made only of scope-exit unsets leaves the parameter unchanged, whatever the standard unset function does |

## Left out

- `makezleparams` (Src/Zle/zle_params.c:73-104) is not modelled. It only creates the parameters in the shell's parameter table and installs the accessors through function-pointer casts. The table, `createparam` and `locallevel` are not part of this model.
- `get_widget` (Src/Zle/zle_params.c:208-213) is not modelled. It is a bare read of the current widget's name from the keymap engine.
- metafy and unmetafy are not part of this model. `Codec` stands in for them. It escapes the NUL byte and the escape byte Meta (0x83) as Meta followed by the byte XOR 32. The shell's real metafy also escapes its internal token bytes. The round trip and the NUL-freedom proved here hold for that scheme too.
- Codec.Decode: unmetafy reads past the end of a string that ends in a bare Meta, which is undefined behaviour in C. The model returns `MalformedEncoding` for it instead. The setters require a well-formed value, which the parameter layer always supplies.
- ZleParams.ZleLine.SizeLine: sizeline is not part of this model. The model grows the array to exactly sz + 1 bytes and fills the new bytes with 0. The C code grows by its own policy and leaves new bytes uninitialised. Only the as-written `SetBuffer` can expose those bytes, after a NUL in the value.
- Memory is not freed (`zsfree`) or allocated on the heap arena (`halloc`) in the model; labels and encoded strings are values.
- ZleParams.ZleLine.SetLBuffer, ZleParams.ZleLine.SetRBuffer: the `int` fields are unbounded integers. No overflow of set_lbuffer's `ll - cs + len` (Src/Zle/zle_params.c:170, 173) or set_rbuffer's `cs + len` (line 196) is modelled for buffers near 2^31 bytes.
- ZleParams.ZleLine.SetCursor: the `long` argument is an unbounded integer; its narrowing to the `int` cursor only happens after clamping to [0, ll], so no value is lost.
- KeyLabels.GetKeys: the result is a sequence of optional strings, with the C array's NULL terminator as `None`. It is not a heap array of pointers. The key buffer is taken as the bytes the key reader stored. How those bytes are produced is not part of this model.
- `get_lwidget` (Src/Zle/zle_params.c:215-220) is a bare read. `Lifecycle.GetLWidget` returns the previous widget's name, or "" when there is no previous widget (line 219). No property is stated about it.
- `stdunsetfn` is not part of this model. `Lifecycle.ZleUnset` takes it as a function parameter.

## Findings

| source | as written | input that shows it | evidently intended | confidence | as-written member | corrected member |
|---|---|---|---|---|---|---|
| Src/Zle/zle_params.c:122-125 | `unmetafy` sets `ll` to the full decoded length, but the bytes are copied with `strcpy`, which stops at the first NUL | BUFFER assigned 'a', NUL, 'b' (metafied as 'a', Meta, 0x20, 'b') while the array holds "xxx": `ll` becomes 3 and the buffer reads 'a', NUL, 'x' | every decoded byte copied (a copy by length, as `set_lbuffer` and `set_rbuffer` do), so BUFFER reads back as assigned | medium; not executed | `ZleParams.SetBufferNulCounterexample` | `ZleParams.ZleLine.SetBufferExact` |

=== FILE: bytes.dfy ===
/** Bytes as the C code sees them: unsigned values 0..255. */
module Bytes {

  newtype byte = b: int | 0 <= b < 256

  /** b XOR 32: flips bit 5. */
  function Xor32(b: byte): byte
  {
    if b % 64 >= 32 then b - 32 else b + 32
  }

  /** b XOR 64: flips bit 6. */
  function Xor64(b: byte): byte
  {
    if b % 128 >= 64 then b - 64 else b + 64
  }

  /** XOR with a constant undoes itself. */
  lemma Xor32Involution(b: byte)
    ensures Xor32(Xor32(b)) == b
  {
  }

  lemma Xor64Involution(b: byte)
    ensures Xor64(Xor64(b)) == b
  {
  }
}

=== FILE: codec.dfy ===
/**
 * The byte codec between the line editor's raw buffer and the shell's
 * NUL-terminated parameter strings ("metafied" text).  A byte that cannot be
 * carried in such a string is written as the escape byte Meta followed by the
 * byte XOR 32; every other byte stands for itself.
 */
module Codec {
  import opened Wrappers
  import opened Bytes

  /** The escape byte of the encoding. */
  const Meta: byte := 0x83

  datatype CodecError = MalformedEncoding

  /** Bytes that must be escaped: the C string terminator and the escape byte itself. */
  predicate Reserved(b: byte) {
    b == 0 || b == Meta
  }

  /** A byte string that can be stored as a C string. */
  predicate NulFree(s: seq<byte>) {
    forall i :: 0 <= i < |s| ==> s[i] != 0
  }

  /** metafy: total on every byte sequence, including ones holding 0 and high-bit bytes. */
  function Encode(b: seq<byte>): (r: seq<byte>)
    ensures NulFree(r)
    ensures |b| <= |r| <= 2 * |b|
    ensures b == [] <==> r == []
  {
    if b == [] then [] else EncodeByte(b[0]) + Encode(b[1..])
  }

  /** One byte of the encoding: an escape pair for a reserved byte, otherwise the byte. */
  function EncodeByte(b: byte): (r: seq<byte>)
    ensures NulFree(r)
    ensures 1 <= |r| <= 2
  {
    if Reserved(b) then [Meta, Xor32(b)] else [b]
  }

  /**
   * unmetafy: the inverse of Encode.  A NUL byte (which no C string holds) or
   * an escape byte with nothing after it is malformed.
   */
  function Decode(s: seq<byte>): (r: Result<seq<byte>, CodecError>)
    ensures r.Ok? ==> NulFree(s)
    ensures r.Ok? ==> |s| / 2 <= |r.value| <= |s|
    decreases |s|
  {
    if s == [] then Ok([])
    else if s[0] == 0 then Err(MalformedEncoding)
    else if s[0] == Meta then
      if |s| < 2 || s[1] == 0 then Err(MalformedEncoding)
      else match Decode(s[2..])
        case Ok(t) => Ok([Xor32(s[1])] + t)
        case Err(e) => Err(e)
    else match Decode(s[1..])
      case Ok(t) => Ok([s[0]] + t)
      case Err(e) => Err(e)
  }

  /** Round-trip law: decoding an encoding gives back the original bytes. */
  lemma {:induction false} DecodeEncode(b: seq<byte>)
    ensures Decode(Encode(b)) == Ok(b)
  {
    if b != [] {
      DecodeEncode(b[1..]);
      DecodeEncodeByte(b[0], Encode(b[1..]), b[1..]);
      assert b == [b[0]] + b[1..];
    }
  }

  /** One step of the round trip: an encoded byte in front of a decodable string. */
  lemma DecodeEncodeByte(c: byte, rest: seq<byte>, t: seq<byte>)
    requires Decode(rest) == Ok(t)
    ensures Decode(EncodeByte(c) + rest) == Ok([c] + t)
  {
    var e := EncodeByte(c) + rest;
    if Reserved(c) {
      assert e[2..] == rest;
      Xor32Involution(c);
    } else {
      assert e[1..] == rest;
    }
  }

  /** Encoding works byte by byte, so it distributes over concatenation. */
  lemma {:induction false} EncodeAppend(a: seq<byte>, b: seq<byte>)
    ensures Encode(a + b) == Encode(a) + Encode(b)
  {
    if a == [] {
      assert a + b == b;
    } else {
      var ab := a + b;
      assert ab[0] == a[0] && ab[1..] == a[1..] + b;
      EncodeAppend(a[1..], b);
      calc {
        Encode(ab);
        EncodeByte(a[0]) + Encode(a[1..] + b);
        EncodeByte(a[0]) + (Encode(a[1..]) + Encode(b));
        (EncodeByte(a[0]) + Encode(a[1..])) + Encode(b);
        Encode(a) + Encode(b);
      }
    }
  }

  /** Distinct byte sequences have distinct encodings. */
  lemma EncodeInjective(a: seq<byte>, b: seq<byte>)
    requires Encode(a) == Encode(b)
    ensures a == b
  {
    DecodeEncode(a);
    DecodeEncode(b);
  }
}

=== FILE: key_labels.dfy ===
/**
 * The read-only array parameter `keys`: the key sequence that invoked the
 * current widget, one label per byte, in caret and meta notation.
 */
module KeyLabels {
  import opened Wrappers
  import opened Bytes
  import opened Memory

  /** A byte as the character with the same code. */
  function ByteChar(b: byte): (ch: char)
    ensures ch as int == b as int
  {
    b as char
  }

  /** c & 0x80 != 0 */
  predicate HighBit(c: byte) {
    c >= 0x80
  }

  /** c & 0x7f */
  function Low7(c: byte): (b: byte)
    ensures b < 0x80
  {
    c % 0x80
  }

  /** A control byte (below 32) or DEL. */
  predicate IsControl(b: byte) {
    b < 32 || b == 0x7f
  }

  /**
   * The label of one key byte: "M-" when the high bit is set (which is then
   * cleared), then the label of the remaining seven bits.
   */
  function KeyLabel(c: byte): string
  {
    (if HighBit(c) then "M-" else "") + BaseLabel(Low7(c))
  }

  /** "^" and the byte XOR 64 for a control byte or DEL; otherwise the byte itself. */
  function BaseLabel(b: byte): string
    requires b < 0x80
  {
    if IsControl(b) then "^" + [ByteChar(Xor64(b))] else [ByteChar(b)]
  }

  /** Reads a label back to the byte it was made from; None when it is not a label. */
  function ParseKeyLabel(s: string): (r: Option<byte>)
  {
    if |s| >= 3 && s[0] == 'M' && s[1] == '-' then
      match ParseBase(s[2..])
      case Some(b) => Some(b + 0x80)
      case None => None
    else ParseBase(s)
  }

  /** The part of a label after any "M-": a printable character, or '^' and a printable character. */
  function ParseBase(s: string): (r: Option<byte>)
    ensures r.Some? ==> r.value < 0x80
  {
    if |s| == 1 && 32 <= s[0] as int <= 126 then Some(s[0] as int as byte)
    else if |s| == 2 && s[0] == '^' && 32 <= s[1] as int <= 126 then
      var b := Xor64(s[1] as int as byte);
      if IsControl(b) then Some(b) else None
    else None
  }

  /**
   * A label fits the five-byte buffer get_keys allocates for it (at most four
   * characters and the terminator), starts with "M-" exactly when the high bit
   * is set, and is printable throughout, so it never holds a NUL.
   */
  lemma KeyLabelShape(c: byte)
    ensures 1 <= |KeyLabel(c)| <= 4
    ensures HighBit(c) <==> |KeyLabel(c)| >= 3 && KeyLabel(c)[..2] == "M-"
    ensures 32 <= KeyLabel(c)[|KeyLabel(c)| - 1] as int <= 126
    ensures forall i :: 0 <= i < |KeyLabel(c)| ==> 32 <= KeyLabel(c)[i] as int <= 126
  {
    var b := Low7(c);
    BaseLabelShape(b);
    if HighBit(c) {
      assert KeyLabel(c) == "M-" + BaseLabel(b);
    } else {
      assert KeyLabel(c) == BaseLabel(b);
    }
  }

  /** A control byte or DEL is shown as '^' and a printable character, any other byte as itself. */
  lemma BaseLabelShape(b: byte)
    requires b < 0x80
    ensures 1 <= |BaseLabel(b)| <= 2
    ensures IsControl(b) <==> |BaseLabel(b)| == 2
    ensures IsControl(b) ==> BaseLabel(b)[0] == '^'
    ensures !IsControl(b) ==> BaseLabel(b) == [ByteChar(b)]
    ensures 32 <= BaseLabel(b)[|BaseLabel(b)| - 1] as int <= 126
  {
  }

  /** The caret notation is undone by XOR-ing with 64 a second time. */
  lemma ParseBaseInverse(b: byte)
    requires b < 0x80
    ensures ParseBase(BaseLabel(b)) == Some(b)
  {
    if IsControl(b) {
      Xor64Involution(b);
    }
  }

  /** Every byte has its own label: the label determines the byte. */
  lemma ParseKeyLabelInverse(c: byte)
    ensures ParseKeyLabel(KeyLabel(c)) == Some(c)
  {
    var b := Low7(c);
    var s := KeyLabel(c);
    ParseBaseInverse(b);
    BaseLabelShape(b);
    if HighBit(c) {
      assert s == "M-" + BaseLabel(b);
      assert s[2..] == BaseLabel(b);
    } else {
      assert s == BaseLabel(b);
    }
  }

  /** Corollary: distinct key bytes get distinct labels. */
  lemma KeyLabelInjective(a: byte, b: byte)
    requires KeyLabel(a) == KeyLabel(b)
    ensures a == b
  {
    ParseKeyLabelInverse(a);
    ParseKeyLabelInverse(b);
  }

  lemma KeyLabelExamples()
    ensures KeyLabel(0x01) == "^A"
    ensures KeyLabel(0x81) == "M-^A"
    ensures KeyLabel(0x7f) == "^?"
    ensures KeyLabel(0x61) == "a"
  {
  }

  /**
   * get_keys: one label per byte of the NUL-terminated key buffer, in order,
   * followed by the NULL that ends the array.
   */
  method GetKeys(keybuf: array<byte>) returns (r: seq<Option<string>>)
    requires StrLen(keybuf[..]) < keybuf.Length
    ensures |r| == StrLen(keybuf[..]) + 1
    ensures r[|r| - 1] == None
    ensures forall i :: 0 <= i < |r| - 1 ==> r[i] == Some(KeyLabel(keybuf[i]))
  {
    var n := StrLen(keybuf[..]);
    r := [];
    var p := 0;
    while keybuf[p] != 0
      invariant 0 <= p <= n
      invariant |r| == p
      invariant forall i :: 0 <= i < p ==> r[i] == Some(KeyLabel(keybuf[i]))
      decreases n - p
    {
      r := r + [Some(KeyLabel(keybuf[p]))];
      p := p + 1;
    }
    r := r + [None];
  }
}

=== FILE: lifecycle.dfy ===
/**
 * The unset hook shared by all the line-editor special parameters, and the
 * read-only LASTWIDGET accessor.
 */
module Lifecycle {
  import opened Wrappers

  /**
   * zleunsetfn: an explicit unset (exp != 0) goes to the standard unset
   * function; the unset done when the widget's scope ends (exp == 0) leaves
   * the parameter alone.  The standard unset function belongs to the
   * parameter table and is passed in.
   */
  function ZleUnset<P>(pm: P, exp: int, stdUnset: (P, int) -> P): P
  {
    if exp != 0 then stdUnset(pm, exp) else pm
  }

  /** A run of unsets on one parameter, each explicit or not, applied in order. */
  function UnsetRun<P>(pm: P, exps: seq<int>, stdUnset: (P, int) -> P): P
  {
    if exps == [] then pm else UnsetRun(ZleUnset(pm, exps[0], stdUnset), exps[1..], stdUnset)
  }

  /** The number of explicit unsets in a run. */
  function ExplicitCount(exps: seq<int>): (n: nat)
    ensures n <= |exps|
  {
    if exps == [] then 0 else (if exps[0] != 0 then 1 else 0) + ExplicitCount(exps[1..])
  }

  /**
   * The standard unset function runs once per explicit unset and never for a
   * scope exit: counting its calls over a run gives the number of explicit unsets.
   */
  lemma {:induction false} StdUnsetCalls(exps: seq<int>, calls: nat)
    ensures UnsetRun(calls, exps, (n: int, e: int) => n + 1) == calls + ExplicitCount(exps)
  {
    if exps != [] {
      var next := ZleUnset(calls, exps[0], (n: int, e: int) => n + 1);
      StdUnsetCalls(exps[1..], next);
    }
  }

  /** The standard unset function applied to every unset of a run, with no guard. */
  function StdRun<P>(pm: P, exps: seq<int>, stdUnset: (P, int) -> P): P
  {
    if exps == [] then pm else StdRun(stdUnset(pm, exps[0]), exps[1..], stdUnset)
  }

  /** A run made only of explicit unsets behaves exactly like the standard unset function. */
  lemma {:induction false} ExplicitUnsetsAreStandard<P>(pm: P, exps: seq<int>, stdUnset: (P, int) -> P)
    requires forall i :: 0 <= i < |exps| ==> exps[i] != 0
    ensures UnsetRun(pm, exps, stdUnset) == StdRun(pm, exps, stdUnset)
  {
    if exps != [] {
      ExplicitUnsetsAreStandard(stdUnset(pm, exps[0]), exps[1..], stdUnset);
    }
  }

  /** Scope exits alone leave the parameter exactly as it was, whatever the standard unset does. */
  lemma {:induction false} ScopeExitsChangeNothing<P>(pm: P, exps: seq<int>, stdUnset: (P, int) -> P)
    requires forall i :: 0 <= i < |exps| ==> exps[i] == 0
    ensures UnsetRun(pm, exps, stdUnset) == pm
  {
    if exps != [] {
      ScopeExitsChangeNothing(pm, exps[1..], stdUnset);
    }
  }

  /** The widget bound to a key, as far as these accessors see it: its name. */
  datatype Widget = Widget(nam: string)

  /** get_lwidget: the name of the previous widget, or the empty string if there was none. */
  function GetLWidget(lbindk: Option<Widget>): string
  {
    if lbindk.Some? then lbindk.value.nam else ""
  }
}

=== FILE: memory.dfy ===
/**
 * The C library byte operations the accessors are written with, over Dafny
 * arrays of bytes: strlen, memmove, memcpy and strcpy.
 */
module Memory {
  import opened Bytes

  /** strlen: the number of bytes before the first NUL, or |s| if there is none. */
  function StrLen(s: seq<byte>): (r: nat)
    ensures r <= |s|
    ensures forall i :: 0 <= i < r ==> s[i] != 0
    ensures r < |s| ==> s[r] == 0
  {
    if s == [] || s[0] == 0 then 0 else 1 + StrLen(s[1..])
  }

  /** A run of n zero bytes. */
  function Zeros(n: nat): (r: seq<byte>)
    ensures |r| == n
    ensures forall i :: 0 <= i < n ==> r[i] == 0
  {
    if n == 0 then [] else Zeros(n - 1) + [0]
  }

  /** The memory after growing it to at least n bytes: old bytes kept, new ones zero. */
  function Grow(mem: seq<byte>, n: nat): (r: seq<byte>)
    ensures |r| == if |mem| < n then n else |mem|
    ensures r[..|mem|] == mem
    ensures forall i :: |mem| <= i < |r| ==> r[i] == 0
  {
    if |mem| < n then mem + Zeros(n - |mem|) else mem
  }

  /**
   * The memory after strcpy(mem, src): the bytes of src up to and including
   * its first NUL overwrite the start of mem; the rest of mem is kept.
   */
  function StrCpyInto(mem: seq<byte>, src: seq<byte>): (r: seq<byte>)
    requires StrLen(src) < |src| && StrLen(src) < |mem|
    ensures |r| == |mem|
    ensures forall i :: 0 <= i <= StrLen(src) ==> r[i] == src[i]
    ensures forall i :: StrLen(src) < i < |mem| ==> r[i] == mem[i]
  {
    src[..StrLen(src) + 1] + mem[StrLen(src) + 1..]
  }

  /** memmove(a + dst, a + src, n): copies n bytes, correct when the two ranges overlap. */
  method MemMove(a: array<byte>, dst: nat, src: nat, n: nat)
    requires dst + n <= a.Length && src + n <= a.Length
    modifies a
    ensures a[..] == old(a[..dst]) + old(a[src..src + n]) + old(a[dst + n..])
  {
    ghost var g := a[..];
    if dst <= src {
      CopyForward(a, dst, src, n);
    } else {
      CopyBackward(a, dst, src, n);
    }
    MovedBytes(g, a[..], dst, src, n);
  }

  /** memmove towards lower addresses, copying from the first byte on: every source byte is read before it can be overwritten. */
  method CopyForward(a: array<byte>, dst: nat, src: nat, n: nat)
    requires dst <= src && src + n <= a.Length
    modifies a
    ensures forall k :: dst <= k < dst + n ==> a[k] == old(a[src + (k - dst)])
    ensures forall k :: 0 <= k < a.Length && !(dst <= k < dst + n) ==> a[k] == old(a[k])
  {
    var i := 0;
    while i < n
      invariant 0 <= i <= n
      invariant forall k :: dst <= k < dst + i ==> a[k] == old(a[src + (k - dst)])
      invariant forall k :: 0 <= k < a.Length && !(dst <= k < dst + i) ==> a[k] == old(a[k])
    {
      a[dst + i] := a[src + i];
      i := i + 1;
    }
  }

  /** memmove towards higher addresses, copying from the last byte back, for the same reason. */
  method CopyBackward(a: array<byte>, dst: nat, src: nat, n: nat)
    requires src < dst && dst + n <= a.Length
    modifies a
    ensures forall k :: dst <= k < dst + n ==> a[k] == old(a[src + (k - dst)])
    ensures forall k :: 0 <= k < a.Length && !(dst <= k < dst + n) ==> a[k] == old(a[k])
  {
    var i := n;
    while i > 0
      invariant 0 <= i <= n
      invariant forall k :: dst + i <= k < dst + n ==> a[k] == old(a[src + (k - dst)])
      invariant forall k :: 0 <= k < a.Length && !(dst + i <= k < dst + n) ==> a[k] == old(a[k])
    {
      i := i - 1;
      a[dst + i] := a[src + i];
    }
  }

  /** The pointwise result of a move, as a sequence. */
  lemma MovedBytes(g: seq<byte>, r: seq<byte>, dst: nat, src: nat, n: nat)
    requires dst + n <= |g| && src + n <= |g| && |r| == |g|
    requires forall k :: dst <= k < dst + n ==> r[k] == g[src + (k - dst)]
    requires forall k :: 0 <= k < |r| && !(dst <= k < dst + n) ==> r[k] == g[k]
    ensures r == g[..dst] + g[src..src + n] + g[dst + n..]
  {
    var front := g[..dst] + g[src..src + n];
    var m := front + g[dst + n..];
    forall k | 0 <= k < |r|
      ensures r[k] == m[k]
    {
      if k < dst {
        assert m[k] == front[k] == g[k];
      } else if k < dst + n {
        assert m[k] == front[k] == g[src + (k - dst)];
      } else {
        assert m[k] == g[k];
      }
    }
  }

  /** memcpy(a + dst, src, n) from a buffer that is not a. */
  method MemCpy(a: array<byte>, dst: nat, src: seq<byte>, n: nat)
    requires n <= |src| && dst + n <= a.Length
    modifies a
    ensures a[..] == old(a[..dst]) + src[..n] + old(a[dst + n..])
  {
    var i := 0;
    while i < n
      invariant 0 <= i <= n
      invariant forall k :: dst <= k < dst + i ==> a[k] == src[k - dst]
      invariant forall k :: 0 <= k < a.Length && !(dst <= k < dst + i) ==> a[k] == old(a[k])
    {
      a[dst + i] := src[i];
      i := i + 1;
    }
    assert a[..] == old(a[..dst]) + src[..n] + old(a[dst + n..]);
  }

  /** strcpy(a, src) from a NUL-terminated buffer that is not a. */
  method StrCpy(a: array<byte>, src: seq<byte>)
    requires StrLen(src) < |src| && StrLen(src) < a.Length
    modifies a
    ensures a[..] == StrCpyInto(old(a[..]), src)
  {
    var p := 0;
    while src[p] != 0
      invariant 0 <= p <= StrLen(src)
      invariant forall k :: 0 <= k < p ==> a[k] == src[k]
      invariant forall k :: p <= k < a.Length ==> a[k] == old(a[k])
      decreases StrLen(src) - p
    {
      a[p] := src[p];
      p := p + 1;
    }
    a[p] := 0;
    assert a[..] == StrCpyInto(old(a[..]), src);
  }

  /**
   * The byte algebra of set_lbuffer: move the n bytes at src to dst = |y|
   * (memmove), then copy y to the front (memcpy).  The first |y| + n bytes
   * are y followed by the moved bytes.
   */
  lemma MoveThenCopy(g: seq<byte>, moved: seq<byte>, final: seq<byte>, y: seq<byte>, src: nat, n: nat)
    requires src + n <= |g| && |y| + n <= |g|
    requires moved == g[..|y|] + g[src..src + n] + g[|y| + n..]
    requires final == g[..0] + y[..|y|] + moved[|y|..]
    ensures |final| == |g|
    ensures final[..|y| + n] == y + g[src..src + n]
  {
    assert |moved| == |g|;
    assert moved[|y|..] == g[src..src + n] + g[|y| + n..];
    assert final == y + moved[|y|..];
  }

  /**
   * The in-place splice of set_lbuffer: the n bytes at src move to |y|
   * (memmove), then y is copied to the front (memcpy).
   */
  method SpliceLeft(a: array<byte>, y: seq<byte>, src: nat, n: nat)
    requires src + n <= a.Length && |y| + n <= a.Length
    modifies a
    ensures a[..|y| + n] == y + old(a[src..src + n])
  {
    ghost var g := a[..];
    MemMove(a, |y|, src, n);
    ghost var moved := a[..];
    MemCpy(a, 0, y, |y|);
    MoveThenCopy(g, moved, a[..], y, src, n);
    assert a[..|y| + n] == a[..][..|y| + n];
  }

  /** After memcpy(a + dst, y, |y|), the first dst + |y| bytes are the old prefix and then y. */
  lemma CopyPrefix(g: seq<byte>, final: seq<byte>, dst: nat, y: seq<byte>)
    requires dst + |y| <= |g|
    requires final == g[..dst] + y[..|y|] + g[dst + |y|..]
    ensures final[..dst + |y|] == g[..dst] + y
  {
    assert y[..|y|] == y;
  }
}

=== FILE: wrappers.dfy ===
/** Absent values and error returns. */
module Wrappers {

  /** A C pointer that may be NULL: an absent parameter value or the end of a NULL-terminated array. */
  datatype Option<+T> = None | Some(value: T)

  /** The outcome of an operation that can fail. */
  datatype Result<+T, +E> = Ok(value: T) | Err(error: E)
}

=== FILE: zle_params.dfy ===
/**
 * The editor state behind the special parameters BUFFER, CURSOR, LBUFFER and
 * RBUFFER: the byte array `line`, the buffer length `ll` and the cursor `cs`,
 * with the accessors that read and write the four views of it.  Parameter
 * values cross the boundary in encoded (metafied) form.
 */
module ZleParams {
  import opened Wrappers
  import opened Bytes
  import opened Codec
  import opened Memory

  function Min(a: int, b: int): int {
    if a < b then a else b
  }

  /** The bytes a setter stores: its decoded argument, or nothing when the value is absent. */
  function Decoded(x: Option<seq<byte>>): seq<byte>
    requires x.Some? ==> Decode(x.value).Ok?
  {
    if x.Some? then Decode(x.value).value else []
  }

  /**
   * The decoded value as unmetafy leaves it in memory, followed by a
   * terminator; strcpy copies it up to its first NUL.
   */
  function CString(d: seq<byte>): (s: seq<byte>)
    ensures s == d + [0]
    ensures StrLen(s) <= |d|
    ensures NulFree(d) ==> StrLen(s) == |d|
  {
    var s := d + [0];
    assert s[|d|] == 0;
    assert NulFree(d) ==> forall i :: 0 <= i < |d| ==> s[i] != 0;
    s
  }

  class ZleLine {
    /** The buffer bytes; the array always has room for a terminator after them. */
    var line: array<byte>
    /** Length of the buffer. */
    var ll: int
    /** Cursor offset. */
    var cs: int

    /** 0 <= $CURSOR <= $#BUFFER, and the buffer fits in the array. */
    ghost predicate Valid()
      reads this
    {
      0 <= cs <= ll < line.Length
    }

    /** The buffer as the user sees it. */
    function Contents(): (s: seq<byte>)
      reads this, line
      requires Valid()
      ensures |s| == ll
    {
      line[..ll]
    }

    constructor (init: seq<byte>, cursor: int)
      requires 0 <= cursor <= |init|
      ensures Valid() && fresh(line)
      ensures Contents() == init && cs == cursor
    {
      line := new byte[|init| + 1](i requires 0 <= i <= |init| => if i < |init| then init[i] else 0);
      ll, cs := |init|, cursor;
    }

    /** sizeline: make room for sz bytes and a terminator, keeping the bytes already there. */
    method SizeLine(sz: int)
      requires 0 <= sz
      modifies this`line
      ensures line.Length == if old(line.Length) <= sz then sz + 1 else old(line.Length)
      ensures line[..old(line.Length)] == old(line[..])
      ensures forall i :: old(line.Length) <= i < line.Length ==> line[i] == 0
      ensures line[..] == Grow(old(line[..]), sz + 1)
      ensures line == old(line) || fresh(line)
    {
      if sz >= line.Length {
        var grown := new byte[sz + 1](_ => 0);
        MemCpy(grown, 0, line[..], line.Length);
        assert grown[..] == Grow(line[..], sz + 1);
        line := grown;
      }
    }

    /** get_buffer: the whole buffer, encoded. */
    function GetBuffer(): (r: seq<byte>)
      reads this, line
      requires Valid()
      ensures NulFree(r)
      ensures Decode(r) == Ok(Contents())
    {
      DecodeEncode(line[..ll]);
      Encode(line[..ll])
    }

    /** get_lbuffer: the part left of the cursor, encoded. */
    function GetLBuffer(): (r: seq<byte>)
      reads this, line
      requires Valid()
      ensures NulFree(r)
      ensures Decode(r) == Ok(Contents()[..cs])
    {
      assert Contents()[..cs] == line[..cs];
      DecodeEncode(line[..cs]);
      Encode(line[..cs])
    }

    /** get_rbuffer: the part from the cursor to the end, encoded. */
    function GetRBuffer(): (r: seq<byte>)
      reads this, line
      requires Valid()
      ensures NulFree(r)
      ensures Decode(r) == Ok(Contents()[cs..])
    {
      assert Contents()[cs..] == line[cs..ll];
      DecodeEncode(line[cs..ll]);
      Encode(line[cs..ll])
    }

    /** get_cursor. */
    function GetCursor(): (r: int)
      reads this, line
      requires Valid()
      ensures 0 <= r <= |Contents()|
    {
      cs
    }

    /** set_cursor: any requested position is clamped into [0, ll]. */
    method SetCursor(x: int)
      requires Valid()
      modifies this`cs
      ensures Valid()
      ensures cs == if x < 0 then 0 else if x > ll then ll else x
      ensures Contents() == old(Contents())
    {
      if x < 0 {
        cs := 0;
      } else if x > ll {
        cs := ll;
      } else {
        cs := x;
      }
    }

    /**
     * set_buffer, as written: the length becomes the decoded length, but the
     * bytes are copied with strcpy, which stops at the first NUL.  The bytes
     * after a NUL in the value are not copied; the buffer keeps whatever the
     * array held there.  An absent value empties the buffer.
     */
    method SetBuffer(x: Option<seq<byte>>)
      requires Valid()
      requires x.Some? ==> Decode(x.value).Ok?
      modifies this, line
      ensures Valid() && (line == old(line) || fresh(line))
      ensures x.None? ==> ll == 0 && cs == 0 && line == old(line) && line[..] == old(line[..])
      ensures x.Some? ==>
        ll == |Decoded(x)| && cs == Min(old(cs), ll) &&
        line[..] == StrCpyInto(Grow(old(line[..]), ll + 1), CString(Decoded(x)))
      ensures x.Some? && NulFree(Decoded(x)) ==> Contents() == Decoded(x)
    {
      if x.Some? {
        var d := Decode(x.value).value;
        ll := |d|;
        SizeLine(ll);
        ghost var g := line[..];
        assert g == Grow(old(line[..]), ll + 1);
        StrCpy(line, CString(d));
        if NulFree(d) {
          StrCpyNulFree(line[..], d, old(line[..]), ll + 1);
          assert line[..ll] == line[..][..ll];
        }
        if cs > ll {
          cs := ll;
        }
      } else {
        cs, ll := 0, 0;
      }
    }

    /**
     * set_buffer with the copy made by length (memcpy) instead of strcpy:
     * every decoded byte, NUL included, reaches the buffer.
     */
    method SetBufferExact(x: Option<seq<byte>>)
      requires Valid()
      requires x.Some? ==> Decode(x.value).Ok?
      modifies this, line
      ensures Valid() && (line == old(line) || fresh(line))
      ensures Contents() == Decoded(x)
      ensures cs == if x.Some? then Min(old(cs), ll) else 0
      ensures x.Some? ==> Decode(GetBuffer()) == Decode(x.value)
    {
      if x.Some? {
        var d := Decode(x.value).value;
        ll := |d|;
        SizeLine(ll);
        ghost var g := line[..];
        MemCpy(line, 0, d, ll);
        CopyPrefix(g, line[..], 0, d);
        assert line[..ll] == line[..][..ll];
        if cs > ll {
          cs := ll;
        }
      } else {
        cs, ll := 0, 0;
      }
    }

    /**
     * set_lbuffer: the decoded value replaces the part left of the cursor and
     * the cursor moves to the end of it.  An absent value counts as empty.
     */
    method SetLBuffer(x: Option<seq<byte>>)
      requires Valid()
      requires x.Some? ==> Decode(x.value).Ok?
      modifies this, line
      ensures Valid() && (line == old(line) || fresh(line))
      ensures Contents() == Decoded(x) + old(Contents()[cs..])
      ensures cs == |Decoded(x)|
      ensures ll == old(ll) - old(cs) + |Decoded(x)|
      ensures Decode(GetLBuffer()) == Ok(Decoded(x))
      ensures GetRBuffer() == old(GetRBuffer())
    {
      var y := Decoded(x);
      ReplaceLeft(y);
      assert line[..cs] == y && line[cs..ll] == old(line[cs..ll]) by {
        assert line[..ll] == line[..cs] + line[cs..ll];
      }
    }

    /** The splice behind set_lbuffer, on the already decoded bytes y. */
    method ReplaceLeft(y: seq<byte>)
      requires Valid()
      modifies this, line
      ensures Valid() && (line == old(line) || fresh(line))
      ensures Contents() == y + old(Contents()[cs..])
      ensures cs == |y|
    {
      var len := |y|;
      var n := ll - cs;
      ghost var right := line[cs..ll];
      assert Contents()[cs..] == right;
      SizeLine(n + len);
      assert line[cs..cs + n] == right by {
        assert line[..old(line.Length)] == old(line[..]);
        assert line[cs..cs + n] == line[..old(line.Length)][cs..ll];
      }
      SpliceLeft(line, y, cs, n);
      ll := n + len;
      cs := len;
    }

    /**
     * set_rbuffer: the decoded value replaces the part from the cursor to the
     * end; the cursor stays.  An absent value counts as empty.
     */
    method SetRBuffer(x: Option<seq<byte>>)
      requires Valid()
      requires x.Some? ==> Decode(x.value).Ok?
      modifies this, line
      ensures Valid() && (line == old(line) || fresh(line))
      ensures Contents() == old(Contents()[..cs]) + Decoded(x)
      ensures cs == old(cs)
      ensures ll == cs + |Decoded(x)|
      ensures Decode(GetRBuffer()) == Ok(Decoded(x))
      ensures GetLBuffer() == old(GetLBuffer())
    {
      var y := Decoded(x);
      ReplaceRight(y);
      assert line[..cs] == old(line[..cs]) && line[cs..ll] == y by {
        assert line[..ll] == line[..cs] + line[cs..ll];
      }
    }

    /** The splice behind set_rbuffer, on the already decoded bytes y. */
    method ReplaceRight(y: seq<byte>)
      requires Valid()
      modifies this, line
      ensures Valid() && (line == old(line) || fresh(line))
      ensures Contents() == old(Contents()[..cs]) + y
      ensures cs == old(cs)
    {
      var len := |y|;
      ghost var left := line[..cs];
      assert Contents()[..cs] == left;
      ll := cs + len;
      SizeLine(ll);
      assert line[..cs] == left by {
        assert line[..old(line.Length)] == old(line[..]);
        assert line[..cs] == line[..old(line.Length)][..cs];
      }
      ghost var g := line[..];
      MemCpy(line, cs, y, len);
      CopyPrefix(g, line[..], cs, y);
      assert line[..ll] == line[..][..ll];
    }
  }

  /**
   * The views agree: LBUFFER followed by RBUFFER is BUFFER, both as encoded
   * strings and as the bytes they decode to.
   */
  lemma ViewsAgree(z: ZleLine)
    requires z.Valid()
    ensures z.GetLBuffer() + z.GetRBuffer() == z.GetBuffer()
    ensures Decode(z.GetLBuffer()).value + Decode(z.GetRBuffer()).value == Decode(z.GetBuffer()).value
  {
    var whole := z.line[..z.ll];
    assert whole == whole[..z.cs] + whole[z.cs..];
    assert whole[..z.cs] == z.line[..z.cs] && whole[z.cs..] == z.line[z.cs..z.ll];
    EncodeAppend(z.line[..z.cs], z.line[z.cs..z.ll]);
  }

  /** A widget's-eye view of the accessors on the buffer "abcdef" with the cursor at 3. */
  method ViewExamples()
  {
    var abcdef: seq<byte> := [0x61, 0x62, 0x63, 0x64, 0x65, 0x66];
    var z := new ZleLine(abcdef, 3);
    z.SetCursor(-5);
    assert z.GetCursor() == 0;
    z.SetCursor(999);
    assert z.GetCursor() == 6;
    z.SetCursor(3);
    var xy: seq<byte> := [0x58, 0x59];
    DecodeEncode(xy);
    z.SetLBuffer(Some(Encode(xy)));
    assert z.Contents() == xy + abcdef[3..] && z.GetCursor() == 2;
    z.SetBufferExact(None);
    assert z.Contents() == [] && z.GetCursor() == 0;
  }

  /** set_rbuffer("Z") on "abcdef" with the cursor at 3 gives "abcZ" and keeps the cursor. */
  method RBufferExample()
  {
    var abcdef: seq<byte> := [0x61, 0x62, 0x63, 0x64, 0x65, 0x66];
    var z := new ZleLine(abcdef, 3);
    var zed: seq<byte> := [0x5a];
    DecodeEncode(zed);
    z.SetRBuffer(Some(Encode(zed)));
    assert z.Contents() == abcdef[..3] + zed && z.GetCursor() == 3;
  }

  /**
   * What set_buffer's strcpy leaves when the decoded value holds a NUL: the
   * buffer shows the value only if the array already held the value's bytes
   * after that NUL.
   */
  lemma StrCpyBufferAfterNul(mem: seq<byte>, d: seq<byte>)
    requires !NulFree(d) && |d| < |mem|
    ensures StrLen(CString(d)) < |d|
    ensures var r := StrCpyInto(mem, CString(d));
      |r| == |mem| && (r[..|d|] == d <==> mem[StrLen(d) + 1..|d|] == d[StrLen(d) + 1..])
  {
    var s := CString(d);
    var k := StrLen(s);
    var i :| 0 <= i < |d| && d[i] == 0;
    assert s[i] == 0;
    assert k < |d|;
    assert StrLen(d) == k by {
      StrLenPrefix(d, s);
    }
    var r := StrCpyInto(mem, s);
    assert r[..|d|] == d[..k + 1] + mem[k + 1..|d|];
    assert d == d[..k + 1] + d[k + 1..];
  }

  /** For a value without NUL bytes, set_buffer's strcpy stores exactly the value. */
  lemma StrCpyNulFree(r: seq<byte>, d: seq<byte>, mem: seq<byte>, n: nat)
    requires NulFree(d) && |d| < n
    requires r == StrCpyInto(Grow(mem, n), CString(d))
    ensures r[..|d|] == d
  {
    assert StrLen(CString(d)) == |d|;
    forall i | 0 <= i < |d|
      ensures r[i] == d[i]
    {
      assert r[i] == CString(d)[i];
    }
  }

  /** strlen only looks as far as the first NUL, so appending bytes after it changes nothing. */
  lemma {:induction false} StrLenPrefix(d: seq<byte>, s: seq<byte>)
    requires d <= s && StrLen(s) < |d|
    ensures StrLen(d) == StrLen(s)
  {
    if d != [] && d[0] != 0 {
      StrLenPrefix(d[1..], s[1..]);
    }
  }

  /**
   * A concrete case: the array holds "xxx", and BUFFER is assigned the three
   * bytes 'a', NUL, 'b'.  The length becomes 3 but the buffer reads 'a', NUL, 'x'.
   */
  lemma SetBufferNulCounterexample()
    ensures var d: seq<byte> := [0x61, 0, 0x62];
      StrLen(CString(d)) == 1 &&
      StrCpyInto([0x78, 0x78, 0x78, 0], CString(d))[..|d|] == [0x61, 0, 0x78] != d
  {
    var d: seq<byte> := [0x61, 0, 0x62];
    assert CString(d)[1] == 0;
  }
}
